=== FILE: README.md ===
# Lazy Disqus, modelled in Dafny

Lazy Disqus is a WordPress plugin. It replaces a theme's comment template with a
partial that holds the Disqus thread element and a small inline script. The
script injects the Disqus embed script once per page view. It does so at start-up
when the URL fragment deep-links to the thread, or on the first scroll event
that comes within 1500 pixels of the thread. The plugin also keeps its settings
and a queue of deferred admin notices in the WordPress options table. A one-shot
updater enqueues a "set your shortname" notice for installs older than 1.0.0.

This project models four pieces of that logic as pure functions and proves
properties about them:

- `deferred_loader.dfy` (module `DeferredLoader`) covers the inline loader
  script. The page is an immutable record of the script's inputs: the URL
  fragment, the thread element's offset-parent chain, the shortname, and whether
  a `head` exists. Start-up is `Init`. Each scroll event is one `Scroll` step,
  and a page view is `Run`, which folds the steps over the scroll positions. The
  injected scripts are kept as a sequence, so "injected once" is a statement
  about its length and contents.
- `public_display.dfy` (module `PublicDisplay`) covers the PHP half of the same
  partial. It reads the shortname setting and echoes it into the script.
- `plugin_options.dfy` (module `PluginOptions`) covers `Lazy_Disqus_Option`:
  the lazily loaded settings global, `get_option` under PHP `empty()` rules, and
  the notice queue with its enqueue and dequeue operations.
- `updater.dfy` (module `Updater`) covers `Lazy_Disqus_Updater`: version
  normalisation, the comparison with 1.0.0, the notice, and the version write.
- `public_gate.dfy` (module `PublicGate`) covers `load_comments_template`.
- Supporting modules:
  - `php_values.dfy` models PHP values, `empty()` and `echo`.
  - `wp_options.dfy` models the options table as a map.
  - `seqs.dfy` holds JavaScript `indexOf`, order-preserving removal (PHP
    `array_diff`) and sums.
  - `results.dfy` holds `Option` and `Result`.

WordPress and browser calls become parameters or map operations:

- `get_option`, `add_option`, `delete_option` and `update_option` are
  operations on `map<string, Value>`.
- `apply_filters` is the identity.
- `is_singular()`, the global `$post`, the plugin directory and the translated
  notice text are inputs.
- The layout (`offsetTop`/`offsetParent`) and `pageYOffset` are inputs.

Three details of the loader script shape the model:

- `loadDisqus` has no guard of its own. Single injection comes from two facts:
  the start-up call runs before the scroll handler exists, and the handler
  tests the flag. `LoadDisqusUnguarded` records that two direct calls inject
  twice.
- The start-up test is `indexOf('#disqus_thread') > 0`, strictly, so the
  fragment `#disqus_thread` itself does not load at start-up
  (`DeepLinkExamples`).
- The flag is set after the script is appended. Handlers run to completion, so
  the model treats the two as one step.

## Model

| member | source | states |
|---|---|---|
| `DeferredLoader.FindTop` | public/partials/lazy-disqus-public-display.php:38-46 | Without an `offsetParent` the result is undefined. Otherwise it is the sum of `offsetTop` over the element and every successive offset parent. |
| `DeferredLoader.EmbedUrl` | public/partials/lazy-disqus-public-display.php:33 | The embed address is a network-path reference (it starts with `//`). Its length is the shortname's plus the fixed prefix and suffix, so nothing is validated or dropped. |
| `DeferredLoader.EmbedUrlRoundTrip` | public/partials/lazy-disqus-public-display.php:26-33 | The shortname can be read back unchanged from `//<shortname>.disqus.com/embed.js`. |
| `DeferredLoader.EmbedShortnameInverse` | public/partials/lazy-disqus-public-display.php:33 | Every address of the embed shape is the embed address of the shortname read from it, so the address determines the shortname. |
| `DeferredLoader.DeepLinkIff` | public/partials/lazy-disqus-public-display.php:48-49 | The start-up test fires exactly when `#disqus_thread` occurs in the fragment but not at index 0. |
| `DeferredLoader.DeepLinkExamples` | public/partials/lazy-disqus-public-display.php:48-49 | The fragment `#disqus_thread` itself and the empty fragment do not deep-link. `#!#disqus_thread` does. |
| `DeferredLoader.Init` | public/partials/lazy-disqus-public-display.php:22-52 | After start-up the widget is loaded exactly when the fragment deep-links, and then exactly one embed script has been injected. A scroll handler is installed exactly when the thread element exists. |
| `DeferredLoader.Scroll` | public/partials/lazy-disqus-public-display.php:54-59 | A scroll event never changes the handler or its offset, and changes nothing once loaded. Before the load, it loads exactly when a handler is installed and `pageYOffset` exceeds the offset minus 1500. |
| `DeferredLoader.ScrollsKeepHandler` | public/partials/lazy-disqus-public-display.php:52-59 | The thread offset is the one computed at start-up. No number of scroll events recomputes it. |
| `DeferredLoader.ScrollsAfterLoad` | public/partials/lazy-disqus-public-display.php:35-55 | Once `disqusLoaded` is true, any further scroll events leave the state exactly as it is. |
| `DeferredLoader.ScrollsKeepConsistent` | public/partials/lazy-disqus-public-display.php:31-59 | Scroll events preserve the invariant that no script is injected before the load and exactly this page's embed script after it. |
| `DeferredLoader.ScrollsLoadedIff` | public/partials/lazy-disqus-public-display.php:54-59 | After a sequence of scroll events the widget is loaded exactly when it already was, or a handler is installed and some event crossed the threshold. |
| `DeferredLoader.ScrollsSplit` | public/partials/lazy-disqus-public-display.php:54-59 | Handling a prefix of the events and then the rest gives the same state as handling them all. |
| `DeferredLoader.RunInjectsAtMostOnce` | public/partials/lazy-disqus-public-display.php:22-61 | Over start-up and any scroll events at most one script is injected. It is injected exactly when the flag is set, with src `//<shortname>.disqus.com/embed.js`, async, in `head` or else `body`. |
| `DeferredLoader.RunLoadedIff` | public/partials/lazy-disqus-public-display.php:48-59 | A page view loads exactly when the fragment deep-links, or the thread element has an offset parent and some scroll position exceeds the summed offset minus 1500. |
| `DeferredLoader.RunWithoutThread` | public/partials/lazy-disqus-public-display.php:51-59 | Without a thread element no scroll sequence changes anything, and the widget is loaded exactly when the fragment deep-links. |
| `DeferredLoader.NoHandlerIgnoresScrolls` | public/partials/lazy-disqus-public-display.php:51 | When no `onscroll` handler was installed, scroll events have no effect. |
| `DeferredLoader.RunWithoutOffsetParent` | public/partials/lazy-disqus-public-display.php:38-55 | When the thread has no offset parent the stored offset is undefined, and only the deep link can load. |
| `DeferredLoader.DeepLinkLoadsAtOnce` | public/partials/lazy-disqus-public-display.php:48-55 | A deep link loads at start-up whatever the thread element. A later qualifying scroll is then a no-op. |
| `DeferredLoader.LoadedStaysLoaded` | public/partials/lazy-disqus-public-display.php:24-55 | The flag is never reset. Once a prefix of the events has loaded the widget, the remaining events change nothing. |
| `DeferredLoader.ThresholdExample` | public/partials/lazy-disqus-public-display.php:55 | With offset 5000, position 3500 does not load and 3501 does. The comparison is strict. |
| `DeferredLoader.ScrollScenario` | public/partials/lazy-disqus-public-display.php:52-57 | With the thread at 2000 and no fragment, positions 0 and 400 do not load. Position 600 loads, injecting one script. |
| `DeferredLoader.LoadDisqus` | public/partials/lazy-disqus-public-display.php:31-36 | A call sets `disqusLoaded` and leaves the scroll handler alone. It appends exactly one script, this page's async embed script in `head` or else `body`, after the ones already injected. |
| `DeferredLoader.LoadDisqusUnguarded` | public/partials/lazy-disqus-public-display.php:31-36 | `loadDisqus` alone does not test the flag. Called twice, it appends two scripts. |
| `PublicDisplay.RenderedPage` | public/partials/lazy-disqus-public-display.php:13-26 | The script always sees a thread element, because the partial renders one just before it. The page keeps the URL fragment and the `head` flag it was given. Reading the shortname leaves the options table unchanged. |
| `PublicDisplay.UnsetShortnameGivesBareHost` | public/partials/lazy-disqus-public-display.php:13-33 | With no usable shortname stored, `get_option` answers `false`, which echoes as nothing. The embed address is then `//.disqus.com/embed.js`. |
| `PublicDisplay.StoredShortnameUsed` | public/partials/lazy-disqus-public-display.php:13-33 | A stored non-empty shortname string is the shortname read back from the injected embed address. |
| `Seqs.IndexOf` | public/partials/lazy-disqus-public-display.php:48 | `indexOf` returns -1 exactly when the pattern does not occur. Otherwise it returns an occurrence with no earlier one. |
| `Seqs.IndexFrom` | public/partials/lazy-disqus-public-display.php:48 | The search from a start index returns the first occurrence at or after it, or -1 when there is none. |
| `WpOptions.DeleteThenAdd` | includes/class-lazy-disqus-options.php:88-89 | `delete_option` followed by `add_option` replaces the stored value, whatever was there. |
| `PhpValues.Lookup` | includes/class-lazy-disqus-options.php:50 | Reading `$settings[$key]` gives null unless the settings are an array holding that key, and then gives its value. |
| `PhpValues.Members` | includes/class-lazy-disqus-options.php:115 | The values `array_diff` compares against are exactly the elements of the array: every element is a member and every member is an element. An empty array has none. |
| `PluginOptions.SetGlobalOptions` | includes/class-lazy-disqus-options.php:21-32 | The global becomes the stored settings. If those are empty or absent it becomes the empty array, and the table is untouched. |
| `PluginOptions.GetOption` | includes/class-lazy-disqus-options.php:42-54 | When the loaded settings hold a non-empty value under the key, that value is the answer. Otherwise the answer is the default. An empty global becomes exactly what `set_global_options` loads, so later reads of other keys see the stored settings. A non-empty global is not reloaded, and the table is untouched. |
| `PluginOptions.EnqueuedNotices` | includes/class-lazy-disqus-options.php:64-67 | The queue read is the stored option, and an absent option reads as `array()`. |
| `PluginOptions.GetOptionLoadsLazily` | includes/class-lazy-disqus-options.php:46-50 | While the global is empty, the answer comes from the stored settings, whatever empty value the global held. |
| `PluginOptions.GetOptionReadsIndependent` | includes/class-lazy-disqus-options.php:42-54 | A read of any key after a read of another key gives the same answer and site as a read of that key alone. The lazy load therefore keeps every stored setting. |
| `PluginOptions.GetOptionRepeatable` | includes/class-lazy-disqus-options.php:44-50 | A second identical read returns the same value and leaves the site as the first read left it. |
| `PluginOptions.QueueItems` | includes/class-lazy-disqus-options.php:84-85 | A stored queue can be pushed onto exactly when it is an array: a list, or the empty array. Any other stored value is a PHP type error. |
| `PluginOptions.EnqueueAdminNotice` | includes/class-lazy-disqus-options.php:77-91 | An empty notice leaves the table as it is. Otherwise the queue option becomes the old queue followed by the notice, and every other option is unchanged. It fails exactly when the stored queue is not an array. |
| `PluginOptions.DequeueAdminNotices` | includes/class-lazy-disqus-options.php:100-124 | It is a no-op for empty notices or an empty stored queue. Otherwise it keeps the queued notices equal to none of the arguments, in order, and deletes the option when none are kept. Other options are unchanged. |
| `PluginOptions.EnqueueKeepsQueueWellFormed` | includes/class-lazy-disqus-options.php:77-91 | On a queue that is absent or a non-empty list, enqueue cannot fail and keeps that shape. It appends the notice at the end and preserves the existing order. |
| `PluginOptions.DequeueKeepsQueueWellFormed` | includes/class-lazy-disqus-options.php:100-124 | On a well-formed queue, dequeue cannot fail and keeps the shape. The remaining queue is the old one without the matched notices, in the original order. |
| `PluginOptions.EnqueueOnWellFormed` | includes/class-lazy-disqus-options.php:84-89 | On a well-formed queue, enqueueing a non-empty notice stores exactly the old queue plus the notice. |
| `PluginOptions.DequeueOnWellFormed` | includes/class-lazy-disqus-options.php:107-122 | On a well-formed queue, dequeueing stores the kept notices, or removes the key entirely when none are kept. |
| `PluginOptions.ShowingDrainsQueue` | admin/class-lazy-disqus-admin.php:130-145 | Dequeueing everything that was read, as the admin page does after showing the notices, removes the queue option. |
| `PluginOptions.DequeueUndoesEnqueue` | includes/class-lazy-disqus-options.php:77-124 | Under structural equality of notices, dequeueing a notice that was just enqueued, and was not queued before, restores the table exactly. |
| `Seqs.Without` | includes/class-lazy-disqus-options.php:115 | Removal keeps every occurrence of each element not in the removed set, with its multiplicity, and drops every occurrence of the others. Order is covered by `WithoutAppend`. |
| `Seqs.WithoutAppended` | includes/class-lazy-disqus-options.php:115 | Removing an element appended to a sequence that did not hold it gives that sequence back. |
| `PhpValues.MembersOfSingleton` | includes/class-lazy-disqus-options.php:115 | A one-notice argument to `array_diff` has that notice as its only member. |
| `Seqs.WithoutAppend` | includes/class-lazy-disqus-options.php:115 | Removal distributes over concatenation, so the kept notices stay in their original relative order. |
| `Seqs.WithoutDisjoint` | includes/class-lazy-disqus-options.php:115 | Removing values that do not occur leaves the queue unchanged. |
| `Seqs.WithoutEverything` | includes/class-lazy-disqus-options.php:115 | Removing a set that covers every queued notice leaves nothing. |
| `Updater.Normalise` | admin/class-lazy-disqus-updater.php:50 | The result is a prefix of the input made of digits and dots only. The next input character, if any, is neither. |
| `Updater.NormaliseIdempotent` | admin/class-lazy-disqus-updater.php:50 | Normalising an already normalised version changes nothing. |
| `Updater.NormaliseExamples` | admin/class-lazy-disqus-updater.php:50 | `1.0.0-beta` normalises to `1.0.0`, and `v1.0.0` to the empty string. |
| `Updater.LexLessIrreflexive` | admin/class-lazy-disqus-updater.php:53 | No version compares less than itself. |
| `Updater.LexLessTransitive` | admin/class-lazy-disqus-updater.php:53 | The version order is transitive. |
| `Updater.LexLessTotal` | admin/class-lazy-disqus-updater.php:53 | Any two component lists are equal or ordered one way or the other. |
| `Updater.OlderThanLatestIsVersionLess` | admin/class-lazy-disqus-updater.php:53 | The test against the written-out components `[1, 0, 0]` is the comparison with the string `1.0.0`. |
| `Updater.OlderThanLatestExamples` | admin/class-lazy-disqus-updater.php:53 | The empty string, `0.0.1` and `1.0` are older than 1.0.0. `1.0.0`, `1.0.0.1` and `2.0` are not. |
| `Updater.NewInstallNotice` | admin/class-lazy-disqus-updater.php:66-73 | The notice is an array with exactly two keys: `class`, holding `updated`, and `message`, holding the given text. |
| `Updater.EnqueueAdminNotice` | admin/class-lazy-disqus-updater.php:87-96 | The updater's own guard is redundant. It behaves exactly as the options queue's enqueue. |
| `Updater.Update` | admin/class-lazy-disqus-updater.php:41-59 | When 1.0.0 is stored, nothing changes. Any successful call leaves 1.0.0 stored. |
| `Updater.UpdateNotifiesOlderVersions` | admin/class-lazy-disqus-updater.php:50-57 | When the stored version is not 1.0.0, the notice is appended exactly when the normalised version is older. The call fails only when it must enqueue onto a queue that is not an array. |
| `Updater.UpdateTouchesOnlyItsOptions` | admin/class-lazy-disqus-updater.php:41-59 | Options other than the version and the notice queue are unchanged. |
| `Updater.UpdateIdempotent` | admin/class-lazy-disqus-updater.php:43-57 | Running the migration again after a successful run changes nothing. |
| `Updater.UpdateKeepsQueueWellFormed` | admin/class-lazy-disqus-updater.php:41-59 | On a well-formed notice queue the migration cannot fail and leaves the queue well formed. |
| `Updater.AbsentVersionIsOlder` | admin/class-lazy-disqus-updater.php:43-55 | The version assumed when none is stored is not 1.0.0, and it gets the notice. |
| `Updater.FirstInstallNotifies` | admin/class-lazy-disqus-updater.php:43-57 | With no version stored, the migration appends the new-install notice and stores 1.0.0. |
| `PublicGate.LoadCommentsTemplate` | public/class-lazy-disqus-public.php:62-71 | The plugin's partial path is returned exactly on a singular view of a post whose `comment_status` is `open`. Otherwise the result is null. |
| `PublicGate.TemplateIgnored` | public/class-lazy-disqus-public.php:62-71 | The answer does not depend on the theme template passed in. |
| `PublicGate.ClosedMeansNoOverride` | public/class-lazy-disqus-public.php:66-68 | A non-singular view, or any status other than `open`, yields null. |

## Left out

- The DOM, fetching and running the embed script, `console.log` and the browser event loop. An injection is a `Script` value appended to a sequence. Scroll events are a sequence of positions, and each handler runs to completion.
- JavaScript numbers are doubles, and `pageYOffset` can be fractional (`offsetTop` is an integer). The model uses integers.
- The document is assumed to have a `body`, because the script runs inside it. With neither `head` nor `body`, `appendChild` would throw, and the model does not cover that case.
- The page-identity values echoed into the script (`disqus_identifier`, `disqus_title`, `disqus_url`) are read by the embed script, not by the loader logic. They are not modelled.
- The shortname is echoed into a JavaScript string literal without escaping. A quote in it would break the script. Text is modelled as plain characters.
- `apply_filters` extension points are the identity.
- PHP arrays are modelled in two shapes: lists, which keep order but not integer keys, and string-keyed dictionaries. `array_diff` keeps the original keys. Only the order is observable to the admin page, and the model keeps the order.
- `Seqs.Without`: dequeue compares notices by structural equality. PHP's `array_diff` compares string casts, under which any two arrays are equal (the TODO in the source notes this). In PHP, dequeueing one array notice therefore removes every queued array notice. `PluginOptions.DequeueUndoesEnqueue` restores the table only under the model's equality; in PHP it holds only when the queue was empty before the enqueue.
- `PluginOptions.QueueItems`: a non-empty string-keyed array stored as the queue is reported as an error, while PHP would push onto it or diff it. The plugin never stores one there. On a scalar, PHP 8 raises a TypeError (as modelled). PHP 7 only warns.
- `PhpValues.Lookup`: a numeric-string key into list-shaped settings is not modelled. Floats are not modelled, so neither is `empty(0.0)`.
- Version comparison is modelled as a comparison on dot-separated numeric components, in which a proper prefix is smaller. This agrees with PHP `version_compare` for digit-and-dot strings whose components are non-empty. Empty components (leading, trailing or doubled dots) read as 0 in the model, whereas PHP's canonicalisation and special-form rules handle them differently. Component overflow of `strtol` is not modelled.
- `Updater.Update`: requires the stored version, when present, to be a string. The plugin only ever writes strings there. PHP's loose `==` and `preg_replace` on other types are not modelled.
- The translated notice message and `admin_url` are host calls, so the message is a parameter.
- HTML rendering (`admin/settings/class-lazy-disqus-callback-helper.php`, the admin partials and tab selection), settings and meta-box registration, `admin/class-lazy-disqus-admin.php` (menus, assets, action links, echoing notices), and the lifecycle files (`lazy-disqus.php`, `includes/class-lazy-disqus.php`, the activator, `uninstall.php`). These are calls into WordPress APIs with no logic of their own to state. The one exception is the show-then-dequeue step of the notices screen, which is modelled as `ShowingDrainsQueue`.

=== FILE: deferred_loader.dfy ===
/**
 * The inline script of the plugin's comment partial: it injects the Disqus
 * embed script once, either at start-up when the URL fragment deep-links to
 * the thread, or on the first scroll event that comes within 1500 pixels of
 * the thread element.
 *
 * The page is a record of the script's inputs, the script's variables are a
 * `Loader` state, and the browser's scroll events are a sequence of
 * `pageYOffset` samples folded through the scroll handler.
 */
module DeferredLoader {
  import opened Results
  import Seqs

  /** How far above the thread, in pixels, scrolling starts the load. */
  const LookAhead := 1500
  /** The fragment that deep-links to the comment thread. */
  const ThreadAnchor := "#disqus_thread"
  const EmbedPrefix := "//"
  const EmbedSuffix := ".disqus.com/embed.js"

  /**
   * The `offsetTop` of the thread element followed by that of each successive
   * `offsetParent`; the last element of the chain has no `offsetParent`.
   */
  type OffsetChain = s: seq<int> | |s| > 0 witness [0]

  /**
   * What the script reads from the page: `window.location.hash`, the first
   * element of class `disqus_thread` (as its offset chain) if any, the
   * shortname echoed into the script, and whether the document has a `head`.
   */
  datatype Page = Page(hash: string, thread: Option<OffsetChain>, shortname: string, hasHead: bool)

  datatype Container = Head | Body

  /** A script element the loader appended to the document. */
  datatype Script = Script(src: string, async: bool, parent: Container)

  /** `window.onscroll`: not installed, or installed with the thread offset computed at start-up. */
  datatype Handler = NoHandler | OnScroll(threadOffset: Option<int>)

  /** The script's state: `disqusLoaded`, the scroll handler, and the scripts injected so far. */
  datatype Loader = Loader(loaded: bool, handler: Handler, injected: seq<Script>)

  /** A network-path reference (section 4.2 of RFC 3986): a relative reference that begins with "//". */
  predicate IsNetworkPath(url: string)
  {
    |url| >= 2 && url[..2] == "//"
  }

  /** The embed script's address for a shortname; the shortname is not checked. */
  function EmbedUrl(shortname: string): (url: string)
    ensures IsNetworkPath(url)
    ensures |url| == |shortname| + |EmbedPrefix| + |EmbedSuffix|
  {
    EmbedPrefix + shortname + EmbedSuffix
  }

  /** The shortname an embed address was built from, if it has the embed shape. */
  function EmbedShortname(url: string): Option<string>
  {
    if |url| >= |EmbedPrefix| + |EmbedSuffix|
       && url[..|EmbedPrefix|] == EmbedPrefix
       && url[|url| - |EmbedSuffix|..] == EmbedSuffix
    then Some(url[|EmbedPrefix|..|url| - |EmbedSuffix|])
    else None
  }

  /** The shortname can be read back from the embed address. */
  lemma EmbedUrlRoundTrip(shortname: string)
    ensures EmbedShortname(EmbedUrl(shortname)) == Some(shortname)
  {
  }

  /** Every address of the embed shape is the embed address of the shortname read from it. */
  lemma EmbedShortnameInverse(url: string)
    requires EmbedShortname(url).Some?
    ensures EmbedUrl(EmbedShortname(url).value) == url
  {
  }

  /** `findTop` as a value: undefined without an `offsetParent`, otherwise the sum along the chain. */
  function ChainTop(chain: OffsetChain): Option<int>
  {
    if |chain| == 1 then None else Some(Seqs.Sum(chain))
  }

  /**
   * `findTop(obj)`: when the element has an `offsetParent`, adds up the
   * `offsetTop` of the element and of each successive `offsetParent` until
   * there is none; otherwise falls off the end and returns `undefined`.
   */
  method FindTop(chain: OffsetChain) returns (top: Option<int>)
    ensures |chain| == 1 ==> top == None
    ensures |chain| > 1 ==> top == Some(Seqs.Sum(chain))
    ensures top == ChainTop(chain)
  {
    if |chain| == 1 {
      return None;
    }
    var curtop := 0;
    var i := 0;
    while i < |chain|
      invariant 0 <= i <= |chain|
      invariant curtop == Seqs.Sum(chain[..i])
    {
      assert chain[..i + 1][..i] == chain[..i];
      curtop := curtop + chain[i];
      i := i + 1;
    }
    assert chain[..|chain|] == chain;
    return Some(curtop);
  }

  /** The start-up test `window.location.hash.indexOf('#disqus_thread') > 0`, strict as written. */
  predicate DeepLink(hash: string)
  {
    Seqs.IndexOf(hash, ThreadAnchor) > 0
  }

  /** The script element `loadDisqus` creates for this page. */
  function EmbedScript(page: Page): Script
  {
    Script(EmbedUrl(page.shortname), true, if page.hasHead then Head else Body)
  }

  /**
   * `loadDisqus()`: appends the embed script to `head`, or to `body` when the
   * document has no `head`, and sets `disqusLoaded`. It has no guard of its own.
   */
  function LoadDisqus(page: Page, st: Loader): (r: Loader)
    ensures r.loaded
    ensures r.handler == st.handler
    ensures |r.injected| == |st.injected| + 1
    ensures r.injected[..|st.injected|] == st.injected
    ensures r.injected[|st.injected|] == EmbedScript(page)
  {
    st.(loaded := true, injected := st.injected + [EmbedScript(page)])
  }

  /** `window.pageYOffset > disqus_threadOffset - 1500`; with an undefined offset the comparison is false. */
  predicate Crosses(threadOffset: Option<int>, pageYOffset: int)
  {
    threadOffset.Some? && pageYOffset > threadOffset.value - LookAhead
  }

  /** The script run once when the page is parsed. */
  function Init(page: Page): (r: Loader)
    ensures r.loaded <==> DeepLink(page.hash)
    ensures r.handler.OnScroll? <==> page.thread.Some?
    ensures r.loaded ==> r.injected == [EmbedScript(page)]
    ensures !r.loaded ==> r.injected == []
  {
    var start := Loader(false, NoHandler, []);
    var linked := if DeepLink(page.hash) then LoadDisqus(page, start) else start;
    match page.thread
    case None => linked
    case Some(chain) => linked.(handler := OnScroll(ChainTop(chain)))
  }

  /** One scroll event at `pageYOffset`, dispatched to the handler if one is installed. */
  function Scroll(page: Page, st: Loader, pageYOffset: int): (r: Loader)
    ensures r.handler == st.handler
    ensures st.loaded ==> r == st
    ensures !st.loaded ==> (r.loaded <==> st.handler.OnScroll? && Crosses(st.handler.threadOffset, pageYOffset))
  {
    match st.handler
    case NoHandler => st
    case OnScroll(threadOffset) =>
      if !st.loaded && Crosses(threadOffset, pageYOffset) then LoadDisqus(page, st) else st
  }

  /** A sequence of scroll events, handled one after another to completion. */
  function Scrolls(page: Page, st: Loader, ys: seq<int>): Loader
    decreases |ys|
  {
    if |ys| == 0 then st else Scrolls(page, Scroll(page, st, ys[0]), ys[1..])
  }

  /** A page view: start-up followed by the reader's scroll events. */
  function Run(page: Page, ys: seq<int>): Loader
  {
    Scrolls(page, Init(page), ys)
  }

  /** The injected scripts agree with the flag: none before the load, exactly this page's embed script after it. */
  predicate Consistent(page: Page, st: Loader)
  {
    if st.loaded then st.injected == [EmbedScript(page)] else st.injected == []
  }

  /** The deep-link test fires exactly when the anchor occurs in the fragment, but not at its very start. */
  lemma DeepLinkIff(hash: string)
    ensures DeepLink(hash) <==>
              (exists i :: Seqs.OccursAt(hash, ThreadAnchor, i)) && !Seqs.OccursAt(hash, ThreadAnchor, 0)
  {
  }

  /** Because the test is strict, the fragment "#disqus_thread" itself does not deep-link; one with a prefix does. */
  lemma DeepLinkExamples()
    ensures !DeepLink(ThreadAnchor)
    ensures !DeepLink("")
    ensures DeepLink("#!" + ThreadAnchor)
  {
    assert Seqs.OccursAt(ThreadAnchor, ThreadAnchor, 0);
    var h := "#!" + ThreadAnchor;
    assert Seqs.OccursAt(h, ThreadAnchor, 2);
    assert !Seqs.OccursAt(h, ThreadAnchor, 0) by {
      assert h[1] != ThreadAnchor[1];
    }
    assert !Seqs.OccursAt(h, ThreadAnchor, 1) by {
      assert h[1] != ThreadAnchor[0];
    }
  }

  /** Handling scroll events never touches the handler, so the thread offset is the one computed at start-up. */
  lemma {:induction false} ScrollsKeepHandler(page: Page, st: Loader, ys: seq<int>)
    ensures Scrolls(page, st, ys).handler == st.handler
    decreases |ys|
  {
    if |ys| != 0 {
      ScrollsKeepHandler(page, Scroll(page, st, ys[0]), ys[1..]);
    }
  }

  /** Once loaded, further scroll events change nothing: the flag is never reset and nothing more is injected. */
  lemma {:induction false} ScrollsAfterLoad(page: Page, st: Loader, ys: seq<int>)
    requires st.loaded
    ensures Scrolls(page, st, ys) == st
    decreases |ys|
  {
    if |ys| != 0 {
      ScrollsAfterLoad(page, Scroll(page, st, ys[0]), ys[1..]);
    }
  }

  /** Scroll events keep the injected scripts consistent with the flag. */
  lemma {:induction false} ScrollsKeepConsistent(page: Page, st: Loader, ys: seq<int>)
    requires Consistent(page, st)
    ensures Consistent(page, Scrolls(page, st, ys))
    decreases |ys|
  {
    if |ys| != 0 {
      ScrollsKeepConsistent(page, Scroll(page, st, ys[0]), ys[1..]);
    }
  }

  /** A run of scroll events loads exactly when the state was loaded or some event crossed the threshold. */
  lemma {:induction false} ScrollsLoadedIff(page: Page, st: Loader, ys: seq<int>)
    ensures Scrolls(page, st, ys).loaded <==>
              st.loaded || (st.handler.OnScroll? && exists i :: 0 <= i < |ys| && Crosses(st.handler.threadOffset, ys[i]))
    decreases |ys|
  {
    if |ys| != 0 {
      var next := Scroll(page, st, ys[0]);
      ScrollsLoadedIff(page, next, ys[1..]);
      if st.handler.OnScroll? {
        var off := st.handler.threadOffset;
        if exists i :: 0 <= i < |ys| && Crosses(off, ys[i]) {
          var i :| 0 <= i < |ys| && Crosses(off, ys[i]);
          if i > 0 {
            assert Crosses(off, ys[1..][i - 1]);
          }
        }
        if exists j :: 0 <= j < |ys[1..]| && Crosses(off, ys[1..][j]) {
          var j :| 0 <= j < |ys[1..]| && Crosses(off, ys[1..][j]);
          assert Crosses(off, ys[j + 1]);
        }
      }
    }
  }

  /** Handling a prefix of the events and then the rest is handling them all. */
  lemma {:induction false} ScrollsSplit(page: Page, st: Loader, ys: seq<int>, k: nat)
    requires k <= |ys|
    ensures Scrolls(page, st, ys) == Scrolls(page, Scrolls(page, st, ys[..k]), ys[k..])
    decreases k
  {
    if k != 0 {
      assert ys[..k][1..] == ys[1..][..k - 1];
      assert ys[k..] == ys[1..][k - 1..];
      ScrollsSplit(page, Scroll(page, st, ys[0]), ys[1..], k - 1);
    }
  }

  /** At most one embed script is injected per page view, and it is this page's embed script. */
  lemma RunInjectsAtMostOnce(page: Page, ys: seq<int>)
    ensures |Run(page, ys).injected| <= 1
    ensures Run(page, ys).loaded <==> |Run(page, ys).injected| == 1
    ensures forall i :: 0 <= i < |Run(page, ys).injected| ==> Run(page, ys).injected[i] == EmbedScript(page)
  {
    ScrollsKeepConsistent(page, Init(page), ys);
  }

  /**
   * A page view loads the widget exactly when the fragment deep-links, or the
   * thread element exists, has an `offsetParent`, and some scroll position
   * exceeds the thread's offset minus 1500.
   */
  lemma RunLoadedIff(page: Page, ys: seq<int>)
    ensures Run(page, ys).loaded <==>
              || DeepLink(page.hash)
              || (&& page.thread.Some?
                  && |page.thread.value| > 1
                  && exists i :: 0 <= i < |ys| && ys[i] > Seqs.Sum(page.thread.value) - LookAhead)
  {
    ScrollsLoadedIff(page, Init(page), ys);
    if page.thread.Some? && |page.thread.value| > 1 {
      var off := Init(page).handler.threadOffset;
      assert off == Some(Seqs.Sum(page.thread.value));
      assert forall i :: 0 <= i < |ys| ==> (Crosses(off, ys[i]) <==> ys[i] > Seqs.Sum(page.thread.value) - LookAhead);
    }
  }

  /** Without a thread element no handler is installed: scrolling never loads, and only the deep link can. */
  lemma RunWithoutThread(page: Page, ys: seq<int>)
    requires page.thread.None?
    ensures Run(page, ys) == Init(page)
    ensures Run(page, ys).loaded <==> DeepLink(page.hash)
  {
    RunLoadedIff(page, ys);
    if Init(page).loaded {
      ScrollsAfterLoad(page, Init(page), ys);
    } else {
      NoHandlerIgnoresScrolls(page, Init(page), ys);
    }
  }

  /** Without an `onscroll` handler, scroll events leave the state as it is. */
  lemma {:induction false} NoHandlerIgnoresScrolls(page: Page, st: Loader, ys: seq<int>)
    requires st.handler == NoHandler
    ensures Scrolls(page, st, ys) == st
    decreases |ys|
  {
    if |ys| != 0 {
      NoHandlerIgnoresScrolls(page, Scroll(page, st, ys[0]), ys[1..]);
    }
  }

  /** A thread element without an `offsetParent` has an undefined offset, so the scroll path never loads. */
  lemma RunWithoutOffsetParent(page: Page, ys: seq<int>)
    requires page.thread.Some? && |page.thread.value| == 1
    ensures Run(page, ys).loaded <==> DeepLink(page.hash)
    ensures Run(page, ys).handler == OnScroll(None)
  {
    RunLoadedIff(page, ys);
    ScrollsKeepHandler(page, Init(page), ys);
  }

  /** A deep link loads at start-up, whatever the thread element, and later scrolls change nothing. */
  lemma DeepLinkLoadsAtOnce(page: Page, ys: seq<int>)
    requires DeepLink(page.hash)
    ensures Init(page).loaded
    ensures Run(page, ys) == Init(page)
  {
    ScrollsAfterLoad(page, Init(page), ys);
  }

  /** The flag is never reset: loaded after some events means loaded after any continuation of them. */
  lemma LoadedStaysLoaded(page: Page, ys: seq<int>, k: nat)
    requires k <= |ys|
    requires Run(page, ys[..k]).loaded
    ensures Run(page, ys) == Run(page, ys[..k])
  {
    ScrollsSplit(page, Init(page), ys, k);
    ScrollsAfterLoad(page, Run(page, ys[..k]), ys[k..]);
  }

  /** The threshold is strict: 1500 pixels above an offset of 5000 does not load, one pixel further does. */
  lemma ThresholdExample(page: Page, st: Loader)
    requires !st.loaded && st.handler == OnScroll(Some(5000))
    ensures !Scroll(page, st, 3500).loaded
    ensures Scroll(page, st, 3501).loaded
  {
  }

  /**
   * A thread at offset 2000 (threshold 500) and no fragment: the scroll
   * positions 0 and 400 do not load, and 600 does.
   */
  lemma ScrollScenario(shortname: string, hasHead: bool)
    ensures var page := Page("", Some([2000, 0]), shortname, hasHead);
            && !Run(page, [0, 400]).loaded
            && Run(page, [0, 400, 600]).loaded
            && Run(page, [0, 400, 600]).injected == [EmbedScript(page)]
  {
    var page := Page("", Some([2000, 0]), shortname, hasHead);
    DeepLinkExamples();
    assert Seqs.Sum([2000, 0]) == 2000 by {
      assert [2000, 0][..1] == [2000];
      assert [2000][..0] == [];
    }
    RunLoadedIff(page, [0, 400]);
    RunLoadedIff(page, [0, 400, 600]);
    RunInjectsAtMostOnce(page, [0, 400, 600]);
  }

  /** `loadDisqus` alone is not idempotent: called twice it injects two scripts. The guard lives in the handler. */
  lemma LoadDisqusUnguarded(page: Page, st: Loader)
    ensures |LoadDisqus(page, LoadDisqus(page, st)).injected| == |st.injected| + 2
  {
  }
}

=== FILE: php_values.dfy ===
/**
 * The PHP values the plugin stores in and reads from the WordPress options table,
 * and the two PHP language rules it relies on: `empty()` and `echo`'s string conversion.
 *
 * A PHP array is split into two shapes: a list (integer keys in insertion order,
 * as `array_push` and `array_diff` produce them; the keys themselves are not kept)
 * and a string-keyed dictionary (as the settings and each notice are).
 */
module PhpValues {

  datatype Value =
    | Null
    | Bool(b: bool)
    | Int(n: int)
    | Str(s: string)
    | List(items: seq<Value>)
    | Dict(fields: map<string, Value>)
  {
    /** The value is a PHP array, the type an `array` parameter hint demands. */
    predicate IsArray()
    {
      List? || Dict?
    }
  }

  /** `array()`. */
  const EmptyArray: Value := List([])

  /** PHP `empty($v)`: null, false, 0, "", "0" and the empty array. */
  predicate IsEmpty(v: Value)
  {
    match v
    case Null => true
    case Bool(b) => !b
    case Int(n) => n == 0
    case Str(s) => s == "" || s == "0"
    case List(items) => |items| == 0
    case Dict(fields) => |fields| == 0
  }

  /** `$array[$key]` read inside `empty()`: a missing key, or a non-array, reads as null. */
  function Lookup(v: Value, key: string): (r: Value)
    ensures r != Null ==> v.Dict? && key in v.fields && r == v.fields[key]
    ensures v.Dict? && key in v.fields ==> r == v.fields[key]
  {
    if v.Dict? && key in v.fields then v.fields[key] else Null
  }

  /** The element values of a PHP array, which is what `array_diff` compares against. */
  function Members(v: Value): (r: set<Value>)
    requires v.IsArray()
    ensures v.List? ==> forall i :: 0 <= i < |v.items| ==> v.items[i] in r
    ensures v.Dict? ==> forall k :: k in v.fields ==> v.fields[k] in r
    ensures IsEmpty(v) ==> r == {}
    ensures forall x :: x in r ==> (v.List? && x in v.items) || (v.Dict? && x in v.fields.Values)
  {
    if v.List? then set i | 0 <= i < |v.items| :: v.items[i] else v.fields.Values
  }

  /** Decimal digits of a natural number, most significant first. */
  function NatToString(n: nat): (r: string)
    ensures |r| > 0
    ensures forall i :: 0 <= i < |r| ==> '0' <= r[i] <= '9'
    decreases n
  {
    if n < 10 then [Digit(n)] else NatToString(n / 10) + [Digit(n % 10)]
  }

  function Digit(d: nat): (c: char)
    requires d < 10
    ensures '0' <= c <= '9'
  {
    ('0' as int + d) as char
  }

  /** The text `echo $v` writes: false and null print nothing, true prints "1", arrays print "Array". */
  function EchoString(v: Value): string
  {
    match v
    case Null => ""
    case Bool(b) => if b then "1" else ""
    case Int(n) => if n < 0 then "-" + NatToString(-n) else NatToString(n)
    case Str(s) => s
    case List(_) => "Array"
    case Dict(_) => "Array"
  }

  /** A one-element list has that element as its only member. */
  lemma MembersOfSingleton(x: Value)
    ensures Members(List([x])) == {x}
  {
    assert [x][0] == x;
  }
}

=== FILE: plugin_options.dfy ===
/**
 * `Lazy_Disqus_Option`: lazily loaded plugin settings, and the queue of admin
 * notices that is persisted in the options table until an admin page shows it.
 */
module PluginOptions {
  import opened Results
  import opened PhpValues
  import opened WpOptions
  import Seqs

  const SettingsKey := "lazy_disqus_settings"
  const NoticesKey := "lazy_disqus_enqueued_admin_notices"

  /** The default of `get_option`'s `$default` parameter. */
  const NoDefault: Value := Bool(false)

  /**
   * What the plugin's options code sees: the options table and the PHP global
   * `$lazy_disqus_options` (`Null` while it has not been set in this request).
   */
  datatype Site = Site(table: Table, settings: Value)

  /** A read through `get_option`: the value returned and the site after the read. */
  datatype Read = Read(value: Value, site: Site)

  /** `set_global_options`: copy the stored settings into the global, an empty array when they are empty. */
  function SetGlobalOptions(site: Site): (r: Site)
    ensures r.table == site.table
    ensures IsEmpty(Get(site.table, SettingsKey, NoDefault)) ==> r.settings == EmptyArray
    ensures !IsEmpty(Get(site.table, SettingsKey, NoDefault)) ==> r.settings == site.table[SettingsKey]
  {
    var stored := Get(site.table, SettingsKey, NoDefault);
    site.(settings := if IsEmpty(stored) then EmptyArray else stored)
  }

  /**
   * `get_option($key, $default)`: loads the global first when it is empty, then
   * answers the setting under `$key` if it is non-empty and `$default` otherwise.
   */
  function GetOption(site: Site, key: string, default: Value): (r: Read)
    ensures r.site.table == site.table
    ensures !IsEmpty(site.settings) ==> r.site == site
    ensures IsEmpty(site.settings) ==> r.site == SetGlobalOptions(site)
    ensures !IsEmpty(r.value) || r.value == default
    ensures r.value != default ==> r.site.settings.Dict? && key in r.site.settings.fields
                                   && r.value == r.site.settings.fields[key]
    ensures !IsEmpty(Lookup(r.site.settings, key)) ==> r.value == Lookup(r.site.settings, key)
    ensures IsEmpty(Lookup(r.site.settings, key)) ==> r.value == default
  {
    var loaded := if IsEmpty(site.settings) then SetGlobalOptions(site) else site;
    var found := Lookup(loaded.settings, key);
    Read(if !IsEmpty(found) then found else default, loaded)
  }

  /** The queue as `get_enqueued_admin_notices()` returns it: the stored option, an empty array when absent. */
  function EnqueuedNotices(t: Table): (r: Value)
    ensures NoticesKey in t ==> r == t[NoticesKey]
    ensures NoticesKey !in t ==> r == EmptyArray
  {
    Get(t, NoticesKey, EmptyArray)
  }

  /** The stored queue read as a list, or the error an array function raises on it. */
  function QueueItems(v: Value): (r: Result<seq<Value>>)
    ensures r.Ok? <==> v.List? || v == Dict(map[])
    ensures v.List? ==> r == Ok(v.items)
    ensures r.Ok? && !v.List? ==> r.value == []
  {
    if v.List? then Ok(v.items)
    else if v == Dict(map[]) then Ok([])
    else Err(NotAList(EchoString(v)))
  }

  /** The notices an admin page would show next, in order. */
  function Queue(t: Table): seq<Value>
  {
    var q := QueueItems(EnqueuedNotices(t));
    if q.Ok? then q.value else []
  }

  /**
   * `enqueue_admin_notice($notice)`: an empty notice is ignored; otherwise the
   * stored queue is replaced by the old queue followed by the notice.
   */
  function EnqueueAdminNotice(t: Table, notice: Value): (r: Result<Table>)
    requires notice.IsArray()
    ensures IsEmpty(notice) ==> r == Ok(t)
    ensures !IsEmpty(notice) ==> (r.Ok? <==> QueueItems(EnqueuedNotices(t)).Ok?)
    ensures r.Ok? && !IsEmpty(notice) ==>
              && NoticesKey in r.value
              && r.value[NoticesKey] == List(Queue(t) + [notice])
              && forall k :: k != NoticesKey ==> Get(r.value, k, Null) == Get(t, k, Null)
  {
    if IsEmpty(notice) then Ok(t)
    else
      match QueueItems(EnqueuedNotices(t))
      case Err(e) => Err(e)
      case Ok(queued) =>
        var pushed := List(queued + [notice]);
        Ok(Add(Delete(t, NoticesKey), NoticesKey, pushed))
  }

  /**
   * `dequeue_admin_notices($notices)`: removes from the stored queue every
   * notice equal to one of `$notices`, keeping the order of the rest, and
   * deletes the option when nothing is left. Nothing happens when either
   * `$notices` or the stored queue is empty.
   */
  function DequeueAdminNotices(t: Table, notices: Value): (r: Result<Table>)
    requires notices.IsArray()
    ensures IsEmpty(notices) || IsEmpty(EnqueuedNotices(t)) ==> r == Ok(t)
    ensures r.Err? <==> !IsEmpty(notices) && !IsEmpty(EnqueuedNotices(t)) && QueueItems(EnqueuedNotices(t)).Err?
    ensures r.Ok? ==> forall k :: k != NoticesKey ==> Get(r.value, k, Null) == Get(t, k, Null)
    ensures r.Ok? && !IsEmpty(notices) && !IsEmpty(EnqueuedNotices(t)) ==>
              var kept := Seqs.Without(Queue(t), Members(notices));
              && (|kept| == 0 <==> NoticesKey !in r.value)
              && (|kept| != 0 ==> r.value[NoticesKey] == List(kept))
  {
    if IsEmpty(notices) then Ok(t)
    else
      var stored := EnqueuedNotices(t);
      if IsEmpty(stored) then Ok(t)
      else
        match QueueItems(stored)
        case Err(e) => Err(e)
        case Ok(queued) =>
          var kept := Seqs.Without(queued, Members(notices));
          var cleared := Delete(t, NoticesKey);
          if |kept| != 0 then Ok(Add(cleared, NoticesKey, List(kept))) else Ok(cleared)
  }

  /** Two reads while the global is still unset see the same settings, whatever empty value it held. */
  lemma GetOptionLoadsLazily(t: Table, unset1: Value, unset2: Value, key: string, default: Value)
    requires IsEmpty(unset1) && IsEmpty(unset2)
    ensures GetOption(Site(t, unset1), key, default) == GetOption(Site(t, unset2), key, default)
    ensures GetOption(Site(t, unset1), key, default).value
              == (var stored := Lookup(Get(t, SettingsKey, NoDefault), key);
                  if !IsEmpty(stored) then stored else default)
  {
  }

  /** A read changes the site at most once: reading again returns the same value and leaves the site as it is. */
  lemma GetOptionRepeatable(site: Site, key: string, default: Value)
    ensures var first := GetOption(site, key, default);
            GetOption(first.site, key, default) == first
  {
  }

  /** Reading one key first does not change what a read of another key answers. */
  lemma GetOptionReadsIndependent(site: Site, k1: string, d1: Value, k2: string, d2: Value)
    ensures GetOption(GetOption(site, k1, d1).site, k2, d2) == GetOption(site, k2, d2)
  {
  }

  /**
   * The shape the plugin keeps the queue in: the option is either absent or a
   * non-empty list (an emptied queue is deleted rather than stored).
   */
  predicate QueueWellFormed(t: Table)
  {
    NoticesKey in t ==> t[NoticesKey].List? && |t[NoticesKey].items| > 0
  }

  /** On a well-formed queue enqueueing cannot fail, keeps the shape, and appends the notice at the end. */
  lemma EnqueueKeepsQueueWellFormed(t: Table, notice: Value)
    requires QueueWellFormed(t) && notice.IsArray()
    ensures EnqueueAdminNotice(t, notice).Ok?
    ensures QueueWellFormed(EnqueueAdminNotice(t, notice).value)
    ensures Queue(EnqueueAdminNotice(t, notice).value)
              == if IsEmpty(notice) then Queue(t) else Queue(t) + [notice]
  {
  }

  /** On a well-formed queue dequeueing cannot fail, keeps the shape, and keeps exactly the unmatched notices in order. */
  lemma DequeueKeepsQueueWellFormed(t: Table, notices: Value)
    requires QueueWellFormed(t) && notices.IsArray()
    ensures DequeueAdminNotices(t, notices).Ok?
    ensures QueueWellFormed(DequeueAdminNotices(t, notices).value)
    ensures Queue(DequeueAdminNotices(t, notices).value)
              == if IsEmpty(notices) then Queue(t) else Seqs.Without(Queue(t), Members(notices))
  {
  }

  /** On a well-formed queue, enqueueing a non-empty notice stores the old queue followed by it. */
  lemma EnqueueOnWellFormed(t: Table, notice: Value)
    requires QueueWellFormed(t) && notice.IsArray() && !IsEmpty(notice)
    ensures EnqueueAdminNotice(t, notice) == Ok(t[NoticesKey := List(Queue(t) + [notice])])
  {
    DeleteThenAdd(t, NoticesKey, List(Queue(t) + [notice]));
  }

  /** On a well-formed queue, dequeueing a non-empty array stores what is kept, or deletes the option. */
  lemma DequeueOnWellFormed(t: Table, notices: Value)
    requires QueueWellFormed(t) && notices.IsArray() && !IsEmpty(notices)
    ensures var kept := Seqs.Without(Queue(t), Members(notices));
            DequeueAdminNotices(t, notices)
              == Ok(if |kept| == 0 then t - {NoticesKey} else t[NoticesKey := List(kept)])
  {
    var kept := Seqs.Without(Queue(t), Members(notices));
    if NoticesKey !in t {
      assert t - {NoticesKey} == t;
    } else if |kept| != 0 {
      DeleteThenAdd(t, NoticesKey, List(kept));
    }
  }

  /**
   * Showing the notices: the admin page reads the whole queue and dequeues
   * what it read, which removes the option altogether.
   */
  lemma {:induction false} ShowingDrainsQueue(t: Table)
    requires QueueWellFormed(t)
    ensures DequeueAdminNotices(t, EnqueuedNotices(t)) == Ok(t - {NoticesKey})
  {
    if NoticesKey in t {
      var q := t[NoticesKey].items;
      DequeueOnWellFormed(t, List(q));
      Seqs.WithoutEverything(q, Members(List(q)));
    } else {
      assert t - {NoticesKey} == t;
    }
  }

  /** Dequeueing a notice that was just enqueued, and was not queued before, restores the table. */
  lemma {:induction false} DequeueUndoesEnqueue(t: Table, notice: Value)
    requires QueueWellFormed(t) && notice.IsArray() && !IsEmpty(notice)
    requires notice !in Queue(t)
    ensures EnqueueAdminNotice(t, notice).Ok?
    ensures DequeueAdminNotices(EnqueueAdminNotice(t, notice).value, List([notice])) == Ok(t)
  {
    EnqueueOnWellFormed(t, notice);
    var t1 := t[NoticesKey := List(Queue(t) + [notice])];
    assert Queue(t1) == Queue(t) + [notice];
    DequeueOnWellFormed(t1, List([notice]));
    MembersOfSingleton(notice);
    Seqs.WithoutAppended(Queue(t), notice);
    if NoticesKey in t {
      assert t1[NoticesKey := List(Queue(t))] == t;
    } else {
      assert t1 - {NoticesKey} == t;
    }
  }
}

=== FILE: public_display.dfy ===
/**
 * The PHP half of the comment partial: it renders the thread element and
 * echoes the shortname setting into the loader script.
 */
module PublicDisplay {
  import opened Results
  import opened PhpValues
  import WpOptions
  import PluginOptions
  import DeferredLoader

  const ShortnameKey := "disqus_shortname"

  /**
   * The page the loader script runs on: the shortname is
   * `get_option('disqus_shortname')` (default `false`) as `echo` prints it,
   * and the thread element always exists because the partial renders it just
   * before the script. `layout` is its offset chain, which the browser decides.
   */
  function RenderedPage(site: PluginOptions.Site, hash: string, layout: DeferredLoader.OffsetChain, hasHead: bool)
    : (r: (DeferredLoader.Page, PluginOptions.Site))
    ensures r.0.thread == Some(layout)
    ensures r.0.hash == hash && r.0.hasHead == hasHead
    ensures r.1.table == site.table
  {
    var read := PluginOptions.GetOption(site, ShortnameKey, PluginOptions.NoDefault);
    (DeferredLoader.Page(hash, Some(layout), EchoString(read.value), hasHead), read.site)
  }

  /** With no usable shortname stored, `false` is echoed as nothing and the embed address has an empty host label. */
  lemma UnsetShortnameGivesBareHost(t: WpOptions.Table, hash: string, layout: DeferredLoader.OffsetChain, hasHead: bool)
    requires IsEmpty(Lookup(WpOptions.Get(t, PluginOptions.SettingsKey, PluginOptions.NoDefault), ShortnameKey))
    ensures var page := RenderedPage(PluginOptions.Site(t, Null), hash, layout, hasHead).0;
            page.shortname == "" && DeferredLoader.EmbedUrl(page.shortname) == "//.disqus.com/embed.js"
  {
  }

  /** A stored non-empty shortname string is what the embed address is built from. */
  lemma StoredShortnameUsed(t: WpOptions.Table, shortname: string, hash: string, layout: DeferredLoader.OffsetChain, hasHead: bool)
    requires PluginOptions.SettingsKey in t
    requires t[PluginOptions.SettingsKey].Dict?
    requires ShortnameKey in t[PluginOptions.SettingsKey].fields
    requires t[PluginOptions.SettingsKey].fields[ShortnameKey] == Str(shortname)
    requires shortname != "" && shortname != "0"
    ensures var page := RenderedPage(PluginOptions.Site(t, Null), hash, layout, hasHead).0;
            DeferredLoader.EmbedShortname(DeferredLoader.EmbedUrl(page.shortname)) == Some(shortname)
  {
  }
}

=== FILE: public_gate.dfy ===
/**
 * `Lazy_Disqus_Public::load_comments_template`: the `comments_template`
 * filter that swaps the theme's comment template for the plugin's partial.
 */
module PublicGate {
  import opened Results

  /** The fields of the global `$post` the gate reads. */
  datatype Post = Post(commentStatus: string)

  /**
   * The request as the gate sees it: whether WordPress is showing a single
   * post or page (`is_singular()`), the global `$post` if there is one, and
   * the plugin's directory (`plugin_dir_path(dirname(__FILE__))`).
   */
  datatype Request = Request(isSingular: bool, post: Option<Post>, pluginDir: string)

  const OpenStatus := "open"
  const DisplayPartial := "public/partials/lazy-disqus-public-display.php"

  /** The comment area is the plugin's: a singular view of a post whose comments are open. */
  predicate CommentsOpen(req: Request)
  {
    req.isSingular && req.post.Some? && req.post.value.commentStatus == OpenStatus
  }

  /**
   * The filter's answer: the partial's path when comments are open on a
   * singular view, and nothing (PHP `null`) otherwise. The theme's template
   * passed in is never returned.
   */
  function LoadCommentsTemplate(req: Request, commentTemplate: string): (r: Option<string>)
    ensures r.Some? <==> CommentsOpen(req)
    ensures r.Some? ==> r.value == req.pluginDir + DisplayPartial
  {
    if !CommentsOpen(req) then None
    else Some(req.pluginDir + DisplayPartial)
  }

  /** The answer does not depend on the theme's template. */
  lemma TemplateIgnored(req: Request, template1: string, template2: string)
    ensures LoadCommentsTemplate(req, template1) == LoadCommentsTemplate(req, template2)
  {
  }

  /** A non-singular view, or any status other than "open", yields null, whatever template was passed in. */
  lemma ClosedMeansNoOverride(req: Request, commentTemplate: string)
    requires !req.isSingular || (req.post.Some? && req.post.value.commentStatus != OpenStatus)
    ensures LoadCommentsTemplate(req, commentTemplate) == None
  {
  }
}

=== FILE: results.dfy ===
/** Optional values and failures shared by every module of the model. */
module Results {

  /** A value that may be absent: JavaScript `undefined`/`null`, PHP `null`. */
  datatype Option<+T> = None | Some(value: T)

  /** The error PHP raises when an array function receives a scalar. */
  datatype Error = NotAList(found: string)

  /** The outcome of an operation that can raise a PHP error. */
  datatype Result<+T> = Ok(value: T) | Err(error: Error)
}

=== FILE: seqs.dfy ===
/** Sequence and string helpers used by the plugin's logic. */
module Seqs {

  /** Sum of a sequence, accumulated from the left as a running total is. */
  function Sum(s: seq<int>): int
  {
    if |s| == 0 then 0 else Sum(s[..|s| - 1]) + s[|s| - 1]
  }

  /** `pat` occurs in `s` starting at index `i`. */
  predicate OccursAt(s: string, pat: string, i: int)
  {
    0 <= i && i + |pat| <= |s| && s[i..i + |pat|] == pat
  }

  /** JavaScript `s.indexOf(pat, from)`: the first occurrence at or after `from`, or -1. */
  function IndexFrom(s: string, pat: string, from: nat): (r: int)
    ensures r == -1 || (from <= r && OccursAt(s, pat, r))
    ensures forall i :: from <= i && (r == -1 || i < r) ==> !OccursAt(s, pat, i)
    decreases |s| + 1 - from
  {
    if from + |pat| > |s| then -1
    else if s[from..from + |pat|] == pat then from
    else IndexFrom(s, pat, from + 1)
  }

  /** JavaScript `s.indexOf(pat)`. */
  function IndexOf(s: string, pat: string): (r: int)
    ensures r == -1 <==> forall i :: !OccursAt(s, pat, i)
    ensures r != -1 ==> OccursAt(s, pat, r) && forall i :: 0 <= i < r ==> !OccursAt(s, pat, i)
  {
    IndexFrom(s, pat, 0)
  }

  /** `xs` without every element that equals some member of `drop`, order kept. */
  function Without<T(==)>(xs: seq<T>, drop: set<T>): (r: seq<T>)
    ensures |r| <= |xs|
    ensures forall i :: 0 <= i < |r| ==> r[i] in xs && r[i] !in drop
    ensures forall i :: 0 <= i < |xs| && xs[i] !in drop ==> xs[i] in r
    ensures forall i {:trigger multiset(r)[xs[i]]} :: 0 <= i < |xs| ==>
              multiset(r)[xs[i]] == if xs[i] in drop then 0 else multiset(xs)[xs[i]]
    decreases |xs|
  {
    if |xs| == 0 then []
    else
      assert xs == [xs[0]] + xs[1..];
      if xs[0] in drop then Without(xs[1..], drop)
      else [xs[0]] + Without(xs[1..], drop)
  }

  /** Removing elements commutes with concatenation, so the relative order of kept elements is preserved. */
  lemma {:induction false} WithoutAppend<T>(xs: seq<T>, ys: seq<T>, drop: set<T>)
    ensures Without(xs + ys, drop) == Without(xs, drop) + Without(ys, drop)
    decreases |xs|
  {
    if |xs| == 0 {
      assert xs + ys == ys;
    } else {
      assert (xs + ys)[1..] == xs[1..] + ys;
      WithoutAppend(xs[1..], ys, drop);
    }
  }

  /** Removing nothing that occurs in `xs` leaves `xs` as it was. */
  lemma {:induction false} WithoutDisjoint<T>(xs: seq<T>, drop: set<T>)
    requires forall i :: 0 <= i < |xs| ==> xs[i] !in drop
    ensures Without(xs, drop) == xs
    decreases |xs|
  {
    if |xs| != 0 {
      WithoutDisjoint(xs[1..], drop);
      assert [xs[0]] + xs[1..] == xs;
    }
  }

  /** Removing a set that covers every element leaves nothing. */
  lemma {:induction false} WithoutEverything<T>(xs: seq<T>, drop: set<T>)
    requires forall i :: 0 <= i < |xs| ==> xs[i] in drop
    ensures Without(xs, drop) == []
    decreases |xs|
  {
    if |xs| != 0 {
      WithoutEverything(xs[1..], drop);
    }
  }

  /** Removing an element appended to a sequence that did not hold it gives the sequence back. */
  lemma WithoutAppended<T>(xs: seq<T>, x: T)
    requires x !in xs
    ensures Without(xs + [x], {x}) == xs
  {
    WithoutAppend(xs, [x], {x});
    WithoutDisjoint(xs, {x});
  }
}

=== FILE: updater.dfy ===
/**
 * `Lazy_Disqus_Updater::update`: a one-shot migration keyed on the version
 * string stored in the options table. It normalises the stored version,
 * enqueues a "set your shortname" notice when the version is older than
 * 1.0.0, and then records 1.0.0.
 */
module Updater {
  import opened Results
  import opened PhpValues
  import opened WpOptions
  import PluginOptions

  const VersionKey := "lazy_disqus_version"
  const LatestVersion := "1.0.0"
  /** What `get_option` answers when no version is stored. */
  const AbsentVersion := "0.0.1"
  const NoticeClass := "updated"

  /** A character the normalising pattern `[^0-9.]` does not match. */
  predicate IsVersionChar(c: char)
  {
    '0' <= c <= '9' || c == '.'
  }

  // Replacing every match of the pattern `[^0-9.].*` with nothing: everything
  // from the first character that is neither a digit nor a dot onward is
  // deleted. (A match stops before a line break, but the line break itself
  // starts the next match, so the whole tail goes.)
  function Normalise(v: string): (r: string)
    ensures r <= v
    ensures forall i :: 0 <= i < |r| ==> IsVersionChar(r[i])
    ensures |r| < |v| ==> !IsVersionChar(v[|r|])
    decreases |v|
  {
    if |v| == 0 || !IsVersionChar(v[0]) then "" else [v[0]] + Normalise(v[1..])
  }

  /** Normalising a normalised version changes nothing. */
  lemma {:induction false} NormaliseIdempotent(v: string)
    ensures Normalise(Normalise(v)) == Normalise(v)
    decreases |v|
  {
  }

  /** The dot-separated pieces of a string; `Split("")` is `[""]`. */
  function Split(s: string): (r: seq<string>)
    ensures |r| > 0
    decreases |s|
  {
    if |s| == 0 then [""]
    else
      var rest := Split(s[1..]);
      if s[0] == '.' then [""] + rest else [[s[0]] + rest[0]] + rest[1..]
  }

  /** A piece without a dot splits into itself. */
  lemma {:induction false} SplitNoDot(d: string)
    requires forall i :: 0 <= i < |d| ==> d[i] != '.'
    ensures Split(d) == [d]
    decreases |d|
  {
    if |d| != 0 {
      SplitNoDot(d[1..]);
      assert [d[0]] + d[1..] == d;
    }
  }

  /** Splitting stops at the first dot. */
  lemma {:induction false} SplitAtDot(d: string, rest: string)
    requires forall i :: 0 <= i < |d| ==> d[i] != '.'
    ensures Split(d + "." + rest) == [d] + Split(rest)
    decreases |d|
  {
    if |d| == 0 {
      assert d + "." + rest == "." + rest;
      assert ("." + rest)[1..] == rest;
    } else {
      assert (d + "." + rest)[1..] == d[1..] + "." + rest;
      SplitAtDot(d[1..], rest);
      assert [d[0]] + d[1..] == d;
    }
  }

  /** The decimal value of a run of digits (an empty run reads as 0). */
  function ParseNat(d: string): nat
    decreases |d|
  {
    if |d| == 0 then 0
    else
      var c := d[|d| - 1];
      ParseNat(d[..|d| - 1]) * 10 + (if '0' <= c <= '9' then c as int - '0' as int else 0)
  }

  function ParseAll(parts: seq<string>): (r: seq<nat>)
    ensures |r| == |parts|
    decreases |parts|
  {
    if |parts| == 0 then [] else [ParseNat(parts[0])] + ParseAll(parts[1..])
  }

  /** The numeric components of a digit-and-dot version; the empty version has none. */
  function Components(v: string): seq<nat>
  {
    if v == "" then [] else ParseAll(Split(v))
  }

  /** Lexicographic order on component lists, in which a proper prefix comes first. */
  predicate LexLess(a: seq<nat>, b: seq<nat>)
    decreases |a|
  {
    if |a| == 0 then |b| > 0
    else |b| > 0 && (a[0] < b[0] || (a[0] == b[0] && LexLess(a[1..], b[1..])))
  }

  /** `version_compare($a, $b, '<')` on digit-and-dot versions. */
  predicate VersionLess(a: string, b: string)
  {
    LexLess(Components(a), Components(b))
  }

  /** The components of 1.0.0, written out. */
  const LatestComponents: seq<nat> := [1, 0, 0]

  /** `version_compare($v, '1.0.0', '<')`. */
  predicate OlderThanLatest(v: string)
  {
    LexLess(Components(v), LatestComponents)
  }

  /** Comparing against the written-out components is comparing against 1.0.0. */
  lemma OlderThanLatestIsVersionLess(v: string)
    ensures OlderThanLatest(v) <==> VersionLess(v, LatestVersion)
  {
    ThreeComponents("1", "0", "0");
    assert LatestVersion == "1" + "." + "0" + "." + "0";
  }

  /** A version with three dot-free pieces splits into them. */
  lemma SplitThree(a: string, b: string, c: string)
    requires forall i :: 0 <= i < |a| ==> a[i] != '.'
    requires forall i :: 0 <= i < |b| ==> b[i] != '.'
    requires forall i :: 0 <= i < |c| ==> c[i] != '.'
    ensures Split(a + "." + b + "." + c) == [a, b, c]
  {
    SplitNoDot(c);
    SplitAtDot(b, c);
    assert a + "." + b + "." + c == a + "." + (b + "." + c);
    SplitAtDot(a, b + "." + c);
  }

  /** The components of a version with three dot-free pieces. */
  lemma ThreeComponents(a: string, b: string, c: string)
    requires forall i :: 0 <= i < |a| ==> a[i] != '.'
    requires forall i :: 0 <= i < |b| ==> b[i] != '.'
    requires forall i :: 0 <= i < |c| ==> c[i] != '.'
    ensures Components(a + "." + b + "." + c) == [ParseNat(a), ParseNat(b), ParseNat(c)]
  {
    var v := a + "." + b + "." + c;
    SplitThree(a, b, c);
    assert v[|a|] == '.';
    assert v != "";
    ParseAllThree(a, b, c);
  }

  lemma ParseAllThree(a: string, b: string, c: string)
    ensures ParseAll([a, b, c]) == [ParseNat(a), ParseNat(b), ParseNat(c)]
  {
    ParseAllCons(a, [b, c]);
    ParseAllCons(b, [c]);
    ParseAllCons(c, []);
  }

  lemma ParseAllCons(d: string, rest: seq<string>)
    ensures ParseAll([d] + rest) == [ParseNat(d)] + ParseAll(rest)
  {
  }

  lemma {:induction false} LexLessIrreflexive(a: seq<nat>)
    ensures !LexLess(a, a)
    decreases |a|
  {
    if |a| != 0 {
      LexLessIrreflexive(a[1..]);
    }
  }

  lemma {:induction false} LexLessTransitive(a: seq<nat>, b: seq<nat>, c: seq<nat>)
    requires LexLess(a, b) && LexLess(b, c)
    ensures LexLess(a, c)
    decreases |a|
  {
    if |a| != 0 && a[0] == b[0] && b[0] == c[0] {
      LexLessTransitive(a[1..], b[1..], c[1..]);
    }
  }

  lemma {:induction false} LexLessTotal(a: seq<nat>, b: seq<nat>)
    ensures a == b || LexLess(a, b) || LexLess(b, a)
    decreases |a|
  {
    if |a| != 0 && |b| != 0 && a[0] == b[0] {
      LexLessTotal(a[1..], b[1..]);
      if a[1..] == b[1..] {
        assert a == [a[0]] + a[1..] && b == [b[0]] + b[1..];
      }
    }
  }

  /** The stored version as the updater reads it. */
  function StoredVersion(t: Table): string
    requires VersionKey in t ==> t[VersionKey].Str?
  {
    if VersionKey in t then t[VersionKey].s else AbsentVersion
  }

  /** The notice asking the administrator to set the shortname; `message` is the translated, linked text. */
  function NewInstallNotice(message: string): (n: Value)
    ensures n.Dict? && !IsEmpty(n)
    ensures "class" in n.fields && n.fields["class"] == Str(NoticeClass)
    ensures "message" in n.fields && n.fields["message"] == Str(message)
    ensures n.fields.Keys == {"class", "message"}
  {
    Dict(map["class" := Str(NoticeClass), "message" := Str(message)])
  }

  /** The updater's own `enqueue_admin_notice`: its emptiness guard repeats the queue's, so it is the queue's enqueue. */
  function EnqueueAdminNotice(t: Table, notice: Value): (r: Result<Table>)
    requires notice.IsArray()
    ensures r == PluginOptions.EnqueueAdminNotice(t, notice)
  {
    if IsEmpty(notice) then Ok(t) else PluginOptions.EnqueueAdminNotice(t, notice)
  }

  /**
   * `update()`. Returns the table unchanged when 1.0.0 is already stored;
   * otherwise enqueues the new-install notice when the normalised version is
   * older than 1.0.0, and stores 1.0.0.
   */
  function Update(t: Table, message: string): (r: Result<Table>)
    requires VersionKey in t ==> t[VersionKey].Str?
    ensures StoredVersion(t) == LatestVersion ==> r == Ok(t)
    ensures r.Ok? ==> VersionKey in r.value && r.value[VersionKey] == Str(LatestVersion)
  {
    var version := StoredVersion(t);
    if version == LatestVersion then Ok(t)
    else
      var normalised := Normalise(version);
      var notified :=
        if OlderThanLatest(normalised) then EnqueueAdminNotice(t, NewInstallNotice(message))
        else Ok(t);
      match notified
      case Err(e) => Err(e)
      case Ok(t') => Ok(WpOptions.Update(t', VersionKey, Str(LatestVersion)))
  }

  /** A migration that does not stop early enqueues the notice exactly when the normalised version is older than 1.0.0. */
  lemma UpdateNotifiesOlderVersions(t: Table, message: string)
    requires VersionKey in t ==> t[VersionKey].Str?
    requires StoredVersion(t) != LatestVersion
    ensures var older := OlderThanLatest(Normalise(StoredVersion(t)));
            && (Update(t, message).Err? <==> older && PluginOptions.QueueItems(PluginOptions.EnqueuedNotices(t)).Err?)
            && (Update(t, message).Ok? ==>
                  PluginOptions.Queue(Update(t, message).value)
                    == if older then PluginOptions.Queue(t) + [NewInstallNotice(message)] else PluginOptions.Queue(t))
  {
  }

  /** The migration writes only the version option and the notice queue. */
  lemma UpdateTouchesOnlyItsOptions(t: Table, message: string, k: string)
    requires VersionKey in t ==> t[VersionKey].Str?
    requires k != VersionKey && k != PluginOptions.NoticesKey
    ensures Update(t, message).Ok? ==> Get(Update(t, message).value, k, Null) == Get(t, k, Null)
  {
    var version := StoredVersion(t);
    var older := OlderThanLatest(Normalise(version));
    var enq := PluginOptions.EnqueueAdminNotice(t, NewInstallNotice(message));
    if version != LatestVersion && older && enq.Ok? {
      assert Get(enq.value, k, Null) == Get(t, k, Null);
      assert Update(t, message).value == enq.value[VersionKey := Str(LatestVersion)];
    } else if version != LatestVersion && !older {
      assert Update(t, message) == Ok(t[VersionKey := Str(LatestVersion)]);
    }
  }

  /** Running the migration a second time changes nothing: `update` is idempotent. */
  lemma UpdateIdempotent(t: Table, message: string, message': string)
    requires VersionKey in t ==> t[VersionKey].Str?
    requires Update(t, message).Ok?
    ensures Update(Update(t, message).value, message') == Update(t, message)
  {
  }

  /** On a well-formed notice queue the migration cannot fail and keeps the queue well formed. */
  lemma UpdateKeepsQueueWellFormed(t: Table, message: string)
    requires VersionKey in t ==> t[VersionKey].Str?
    requires PluginOptions.QueueWellFormed(t)
    ensures Update(t, message).Ok?
    ensures PluginOptions.QueueWellFormed(Update(t, message).value)
  {
  }

  /** How concrete stored versions are normalised. */
  lemma NormaliseExamples()
    ensures Normalise("1.0.0-beta") == "1.0.0"
    ensures Normalise("v1.0.0") == ""
  {
  }

  /** How concrete normalised versions compare with 1.0.0; a shorter prefix such as 1.0 is older. */
  lemma OlderThanLatestExamples()
    ensures OlderThanLatest("")
    ensures OlderThanLatest("0.0.1")
    ensures !OlderThanLatest(LatestVersion)
    ensures !OlderThanLatest("1.0.0.1")
    ensures OlderThanLatest("1.0")
    ensures !OlderThanLatest("2.0")
  {
    ThreeComponents("0", "0", "1");
    assert "0.0.1" == "0" + "." + "0" + "." + "1";
    ThreeComponents("1", "0", "0");
    assert LatestVersion == "1" + "." + "0" + "." + "0";
    SplitAtDot("1", "0.0.1");
    assert "1.0.0.1" == "1" + "." + "0.0.1";
    SplitThree("0", "0", "1");
    assert "0.0.1" == "0" + "." + "0" + "." + "1";
    ParseAllCons("1", ["0", "0", "1"]);
    ParseAllCons("0", ["0", "1"]);
    ParseAllCons("0", ["1"]);
    ParseAllCons("1", []);
    SplitNoDot("0");
    SplitAtDot("1", "0");
    assert "1.0" == "1" + "." + "0";
    SplitAtDot("2", "0");
    assert "2.0" == "2" + "." + "0";
  }

  /** The version assumed when none is stored is one that gets the notice. */
  lemma AbsentVersionIsOlder()
    ensures AbsentVersion != LatestVersion
    ensures OlderThanLatest(Normalise(AbsentVersion))
  {
    assert Normalise(AbsentVersion) == AbsentVersion;
    OlderThanLatestExamples();
  }

  /** A first install (no version stored) enqueues the notice and records 1.0.0. */
  lemma FirstInstallNotifies(t: Table, message: string)
    requires VersionKey !in t && PluginOptions.QueueWellFormed(t)
    ensures Update(t, message).Ok?
    ensures Update(t, message).value[VersionKey] == Str(LatestVersion)
    ensures PluginOptions.Queue(Update(t, message).value) == PluginOptions.Queue(t) + [NewInstallNotice(message)]
  {
    AbsentVersionIsOlder();
    assert StoredVersion(t) == AbsentVersion;
    UpdateKeepsQueueWellFormed(t, message);
    UpdateNotifiesOlderVersions(t, message);
  }
}

=== FILE: wp_options.dfy ===
/**
 * The WordPress options table as the plugin uses it: a map from option name to
 * stored value, with the host's `get_option`, `add_option`, `delete_option`
 * and `update_option` as map operations.
 */
module WpOptions {
  import opened PhpValues

  type Table = map<string, Value>

  /** `get_option($name, $default)`: the stored value, or `$default` when none is stored. */
  function Get(t: Table, name: string, default: Value): Value
  {
    if name in t then t[name] else default
  }

  /** `delete_option($name)`. */
  function Delete(t: Table, name: string): Table
  {
    t - {name}
  }

  /** `add_option($name, $v)`: stores only when the option does not exist yet. */
  function Add(t: Table, name: string, v: Value): Table
  {
    if name in t then t else t[name := v]
  }

  /** `update_option($name, $v)`: stores, replacing any previous value. */
  function Update(t: Table, name: string, v: Value): Table
  {
    t[name := v]
  }

  /** Deleting and then adding an option replaces it, whatever was stored before. */
  lemma DeleteThenAdd(t: Table, name: string, v: Value)
    ensures Add(Delete(t, name), name, v) == t[name := v]
  {
  }
}
